=== FILE: README.md ===
# Commit-log retention engine (TightDB `commit_log.cpp`) in Dafny

This project models the in-process commit-log retention engine of TightDB.
That engine stores, per database file, the binary change-log of each committed
write transaction under its version number. Readers that catch up to a newer
snapshot fetch ranges of these logs. Logs are freed once no reader needs them.

Three parts are modelled, each as immutable values with pure transitions:

- `WriteLogRegistry` (`write_log_registry.dfy`): the sliding window of commit
  entries. A `Registry` holds a sequence of slots addressed by
  `version - arrayStart`, plus the `oldest` and `newest` versions. `oldest == 0`
  means no versions are held. A slot is `Some(payload)` while the registry owns
  the payload and `None` once it has been freed.
  - `Valid` is the window invariant: `arrayStart <= oldest <= newest`,
    storage length `newest - arrayStart + 1`, the slots of `[oldest, newest]`
    live, and every slot below `oldest` freed (nothing leaks). An empty
    registry has empty storage.
  - `Contents` maps each retained version to its payload. It is the abstract
    "ordered map from version to entry" that the properties are stated against.
- `WriteLogRegistryFacts` (`write_log_registry_facts.dfy`): lemmas relating
  the transitions to `Valid` and `Contents`, the two findings below, and the
  end-to-end scenario "commit a, bb, ccc; release; recommit".
- `RegistryRegistry` (`registry_registry.dfy`): the directory from database
  path to registry. A registry's identity is a `RegistryId`. `get` mints a
  fresh identity from a counter, standing for the pointer `new` returns.
- `WriteLogCollector` (`write_log_collector.dfy`): the per-session adapter.
  It holds a buffer (its length is the capacity) and a cursor. Begin, reserve
  and append fill the buffer. Commit hands the written prefix to the registry
  as version `orig + 1`. The forwarding calls reach the collector's registry
  through an explicit `Registries` store keyed by identity.

Each `requires` on a registry transition is one of the source's debug
assertions, or an in-bounds condition without which its vector indexing would
be undefined. Every call is modelled as atomic.

## Model

| member | source | states |
|---|---|---|
| WriteLogRegistry.HoldsSomeCommits | src/tightdb/commit_log.cpp:57 | Decides whether any version is held: exactly when `oldest` is non-zero. Its meaning on a valid registry is stated by `HoldsSomeCommitsIffNonEmpty`. |
| WriteLogRegistry.ToIndex | src/tightdb/commit_log.cpp:52-55 | Defined only for versions not below `arrayStart` (the source's assertion). The index maps back to the version (`arrayStart + i == v`), and for a held version up to `newest` of an addressable registry it lies inside storage. |
| WriteLogRegistry.IsAKnownCommit | src/tightdb/commit_log.cpp:72-75 | True exactly for versions `oldest..newest` of a registry that holds commits. Such a version of an addressable registry has a storage slot, and in a valid registry it is known exactly when it is retained. |
| WriteLogRegistryFacts.HoldsSomeCommitsIffNonEmpty | src/tightdb/commit_log.cpp:57 | In a valid registry, versions are held exactly when storage is non-empty and exactly when some content is retained. |
| WriteLogRegistry.AddCommit | src/tightdb/commit_log.cpp:116-130 | On an empty registry the version seeds both `arrayStart` and `oldest`. Otherwise it must be `newest + 1` and the window start is kept. Either way the entry is appended as the last slot and `newest` becomes the version. |
| WriteLogRegistry.CommitEntries | src/tightdb/commit_log.cpp:134-147 | Under the per-version assertions, yields `to - from` views. The `i`-th view is the slot of version `from + 1 + i`, in ascending order. |
| WriteLogRegistry.GetCommitEntries | src/tightdb/commit_log.cpp:134-147 | The copying loop fills exactly `to - from` views, the `i`-th being the slot at index `from + 1 + i - arrayStart`. It agrees with `CommitEntries`. The registry is a value, so it is unchanged. |
| WriteLogRegistry.SetOldestVersionNeededAsWritten | src/tightdb/commit_log.cpp:150-192 | The code as written. No-op on an empty registry. With `k == newest` the registry empties: no versions, `arrayStart` 0, no storage. With `k < newest`, `oldest` becomes `k + 1` and each version in `[k+1, newest]` keeps its slot contents. Slots of `oldest..k` that are still stored are freed. Compaction runs exactly when `k + 1 - arrayStart > |storage| / 2`, and then `arrayStart == oldest` and the storage length is `newest - k`; otherwise both are unchanged. Afterwards at most half of the storage lies below `oldest`. |
| WriteLogRegistry.SetOldestVersionNeeded | src/tightdb/commit_log.cpp:150-192 | The corrected advance. It is a no-op on an empty registry. It equals the as-written one whenever `k + 1 >= oldest`, and `oldest` never moves backwards. |
| WriteLogRegistry.ResetLogManagementAsWritten | src/tightdb/commit_log.cpp:99-113 | The code as written. The window is forgotten (`oldest` and `newest` become 0), every held version's slot is freed, and the storage length and `arrayStart` are kept. On an empty registry it is a no-op. |
| WriteLogRegistry.ResetLogManagement | src/tightdb/commit_log.cpp:99-113 | The corrected reset. It also truncates storage, so the result is a valid empty window with no content. |
| WriteLogRegistryFacts.AddCommitPreservesValid | src/tightdb/commit_log.cpp:116-130 | Adding a non-zero, contiguous version keeps the window invariant. The content gains exactly that version and payload. |
| WriteLogRegistryFacts.SetOldestVersionNeededPreservesValid | src/tightdb/commit_log.cpp:150-192 | Any advance up to `newest` keeps the invariant, whether or not it compacts. The content loses exactly the versions `<= k`. |
| WriteLogRegistryFacts.SetOldestVersionNeededIdempotent | src/tightdb/commit_log.cpp:155-191 | For the corrected advance: a second advance to the same watermark leaves the registry unchanged, with or without compaction in the first. |
| WriteLogRegistryFacts.SetOldestVersionNeededAsWrittenPreservesValid | src/tightdb/commit_log.cpp:150-192 | For the code as written: an advance with `oldest <= k + 1 <= newest + 1` keeps the invariant, and the content loses exactly the versions `<= k`. |
| WriteLogRegistryFacts.SetOldestVersionNeededAsWrittenIdempotent | src/tightdb/commit_log.cpp:155-191 | For the code as written: after any admissible advance to `k`, a second advance to `k` is admissible again and leaves the registry unchanged. |
| WriteLogRegistryFacts.StorageBoundAfterAdvance | src/tightdb/commit_log.cpp:178-190 | After an as-written advance of a valid registry that leaves versions held, storage is at most twice the live window (the compaction hysteresis bound). |
| WriteLogRegistryFacts.FetchReturnsRetainedPayloads | src/tightdb/commit_log.cpp:134-147 | In a valid registry, a range inside the window meets the fetch assertions. Every view in it is the live payload of its version. |
| WriteLogRegistryFacts.ResetAsWrittenLeavesStaleStorage | src/tightdb/commit_log.cpp:99-113 | The as-written reset frees every slot. The result is a valid window only if nothing was held. |
| WriteLogRegistryFacts.ResetThenAddCommitLosesPayload | src/tightdb/commit_log.cpp:99-130 | After the as-written reset of a non-empty registry, a commit of `v` makes `v` known, but its slot is a freed one. The fetch of `(v-1, v]` returns a null view, the payload sits at the old tail, and the invariant fails. |
| WriteLogRegistryFacts.ResetThenReleaseLeaksPayload | src/tightdb/commit_log.cpp:99-172 | After the as-written reset of a non-empty registry and a commit of `v`, releasing `v` frees only the stale first slot: the slot holding the payload is still `Some` when storage is emptied, so the payload is never freed. |
| WriteLogRegistryFacts.ResetThenReleaseLeakExample | src/tightdb/commit_log.cpp:99-172 | Concrete input: `a, bb, ccc` as versions 1..3, reset, `d` as version 4 gives `[None, None, None, d]` from 4. The release loop for 4 leaves `d` owned at index 3, and the release empties storage. |
| WriteLogRegistryFacts.ResetThenAddCommitSeedsWindow | src/tightdb/commit_log.cpp:99-130 | After the corrected reset, a commit of `v` gives a valid window holding exactly `v`. |
| WriteLogRegistryFacts.WatermarkRegressionAsWritten | src/tightdb/commit_log.cpp:159-178 | As written, a watermark `k < oldest - 1` moves `oldest` back to `k + 1`. That version is then known, its slot is freed, and the invariant fails. |
| WriteLogRegistryFacts.WatermarkRegressionExample | src/tightdb/commit_log.cpp:150-192 | Concrete input, reached by committing versions 1..5 and releasing up to 2 (no compaction): versions 3..5 retained, storage from 1, watermark 0. As written `oldest` drops to 1 and validity is lost; the corrected advance leaves the registry unchanged. |
| WriteLogRegistryFacts.CompactedWatermarkExample | src/tightdb/commit_log.cpp:150-192 | Concrete input, reached by committing versions 1..5 and releasing up to 3 (which compacts storage to start at 4): the registry is valid, and a watermark of 1 would move `oldest` to 2, below `arrayStart`, where `to_index` asserts. The corrected advance leaves the registry unchanged. |
| WriteLogRegistryFacts.LowWatermarkKeepsContents | src/tightdb/commit_log.cpp:159-178 | On a valid registry, the corrected advance with a watermark below `oldest - 1` keeps the invariant, `oldest` and every retained version. |
| WriteLogRegistryFacts.Replay | src/tightdb/commit_log.cpp:116-130 | Committing `N` payloads to a fresh registry as versions `1..N` leaves `newest == N`, with versions held exactly when `N > 0`. |
| WriteLogRegistryFacts.ReplayRetainsEveryCommit | src/tightdb/commit_log.cpp:116-130 | After those `N` commits the registry is valid and retains payload `i` under version `i`. |
| WriteLogRegistryFacts.FetchAllAfterReplay | src/tightdb/commit_log.cpp:134-147 | After those commits, fetching `(0, N]` returns all `N` payloads in commit order. |
| WriteLogRegistryFacts.ReplayFiveCommits | src/tightdb/commit_log.cpp:116-130 | Committing "a" to "e" gives storage `[a, b, c, d, e]` from version 1. |
| WriteLogRegistryFacts.ReplayThreeCommits | src/tightdb/commit_log.cpp:116-130 | Committing "a", "bb", "ccc" gives storage `[a, bb, ccc]` from version 1. |
| WriteLogRegistryFacts.ReleaseScenarioSteps | src/tightdb/commit_log.cpp:159-190 | With the as-written advance, releasing version 1 of that window frees its slot without compacting. Releasing 3 then empties the registry. |
| WriteLogRegistryFacts.EndToEndScenario | src/tightdb/commit_log.cpp:116-192 | The scenario in order, with the as-written advance. Fetch returns a, bb, ccc. Release 1, then fetch returns bb, ccc. Release 3 and the registry is empty. Commit "d" as version 4 and fetch returns d. |
| RegistryRegistry.Get | src/tightdb/commit_log.cpp:212-222 | Returns the stored registry if the path is present, leaving the directory unchanged. Otherwise it stores and returns a freshly minted registry (the counter's value, and the counter advances), distinct from every stored one when every stored identity lies below the counter. No other path changes. |
| RegistryRegistry.Add | src/tightdb/commit_log.cpp:235-239 | Overwrites only the given path. |
| RegistryRegistry.Remove | src/tightdb/commit_log.cpp:242-246 | Erases only the given path. |
| RegistryRegistry.InitialIsValid | src/tightdb/commit_log.cpp:200-209 | The directory starts with no paths, so it is valid and one-to-one. |
| RegistryRegistry.GetTwiceSameRegistry | src/tightdb/commit_log.cpp:212-222 | Two `get` calls on the same path return the same registry. |
| RegistryRegistry.GetPreservesInjective | src/tightdb/commit_log.cpp:212-222 | `get` never makes two paths share a registry. |
| RegistryRegistry.GetDistinctPathsDistinctRegistries | src/tightdb/commit_log.cpp:212-222 | `get` on two different paths returns two different registries. |
| WriteLogCollector.MakeWriteLogCollector | src/tightdb/commit_log.cpp:362-377 | The collector is bound to the registry `get` returns for its path, and the directory becomes the one `get` leaves. If the path was unknown, the new registry is not among the existing ones and starts empty. Every existing registry is kept, and all registries stay below the directory's counter. The collector starts with no buffer. |
| WriteLogCollector.MakeTwiceSharesRegistry | src/tightdb/commit_log.cpp:362-377 | Two collectors opened on the same path share one registry; the second opening changes neither the directory nor the registries. |
| WriteLogCollector.BeginWriteTransact | src/tightdb/commit_log.cpp:310-315 | Nothing is written after begin, and the buffer (its capacity) is kept. |
| WriteLogCollector.TransactLogReserve | src/tightdb/commit_log.cpp:338-359 | Capacity is at least the cursor plus the requested size. The cursor and the written prefix are preserved. |
| WriteLogCollector.TransactLogAppend | src/tightdb/commit_log.cpp:344-348 | The written bytes become the old written bytes followed by the appended data. |
| WriteLogCollector.CommitWriteTransact | src/tightdb/commit_log.cpp:318-328 | Returns `orig + 1`. The collector's registry gains the written prefix as its last slot and version `orig + 1`, and a valid registry gains exactly that content. No other registry changes, and the collector owns no buffer afterwards. |
| WriteLogCollector.SetOldestVersionNeeded | src/tightdb/commit_log.cpp:292-295 | Forwards to the as-written advance of the collector's registry only. When `oldest <= k + 1`, a valid registry stays valid and loses exactly the versions `<= k`. |
| WriteLogCollector.ResetLogManagement | src/tightdb/commit_log.cpp:305-308 | Forwards to the as-written reset of the collector's registry only. It holds no versions afterwards and keeps its storage length and start; a valid registry is left with every slot freed. |
| WriteLogCollector.SetOldestVersionNeededCorrected | src/tightdb/commit_log.cpp:292-295 | The same forwarding with the corrected advance: any watermark up to `newest` keeps a valid registry valid and removes exactly the versions `<= k`. |
| WriteLogCollector.ResetLogManagementCorrected | src/tightdb/commit_log.cpp:305-308 | The same forwarding with the corrected reset: the registry becomes a valid empty window. |
| WriteLogCollector.GetCommitEntries | src/tightdb/commit_log.cpp:298-302 | Forwards to the collector's registry and returns its slots for `(from, to]`, in order. |
| WriteLogCollector.WrittenIsConcatenationOfAppends | src/tightdb/commit_log.cpp:310-348 | After begin followed by appends `d1..dn`, the written bytes are `d1 + ... + dn`. |
| WriteLogCollector.CommittedPayloadIsConcatenation | src/tightdb/commit_log.cpp:310-328 | Begin, appends `d1..dn`, then commit on a valid registry. Fetching `(orig, orig + 1]` then returns `d1 + ... + dn`. |

## Findings

| source | as written | input that shows it | evidently intended | confidence | as-written member | corrected member |
|---|---|---|---|---|---|---|
| src/tightdb/commit_log.cpp:99-130 | `reset_log_management` frees the entries and zeroes `oldest`/`newest`. It keeps the storage vector's length and `array_start`. A later `add_commit(v)` sets `array_start = v` but `push_back`s at the old tail. | Commit versions 1..3, reset, commit version 4: `to_index(4) == 0` names a freed slot. The payload sits at index 3, and a fetch of `(3, 4]` yields a null view. Releasing version 4 then frees only index 0 (line 159) and empties storage (line 172) with `d` still owned at index 3, so it leaks (`ResetThenReleaseLeaksPayload`, `ResetThenReleaseLeakExample`). | A reset leaves empty storage, as the full-release path of `set_oldest_version_needed` does (lines 168-172). | high (not executed) | WriteLogRegistryFacts.ResetThenAddCommitLosesPayload | WriteLogRegistry.ResetLogManagement |
| src/tightdb/commit_log.cpp:159-178 | `set_oldest_version_needed(k)` sets `oldest = k + 1` even when `k + 1` is below the current `oldest`. | Versions 3..5 retained with storage from 1 (slots of 1 and 2 freed), then watermark 0: `oldest` becomes 1. Version 1 is "known" again and fetches a freed slot. | A watermark below `oldest - 1` only names already-freed versions and leaves `oldest` where it is. | medium (not executed) | WriteLogRegistryFacts.WatermarkRegressionAsWritten | WriteLogRegistry.SetOldestVersionNeeded |
| src/tightdb/commit_log.cpp:159-185 | After a compaction, a watermark below `array_start - 1` still sets `oldest = k + 1`, now below `array_start`. The next `to_index(oldest)` at line 178 asserts `version >= array_start`; in a release build the subtraction wraps around, so `begin` is huge and the `std::copy` at line 185 reads out of range. | Commit versions 1..5, release up to 3 (compacts storage to start at 4), then watermark 1: `oldest` would become 2 < 4. | As for the row above: a watermark below `oldest - 1` leaves the registry as it is. | medium (not executed) | WriteLogRegistryFacts.CompactedWatermarkExample | WriteLogRegistryFacts.LowWatermarkKeepsContents |

The collector's `SetOldestVersionNeeded` and `ResetLogManagement` forward to
the as-written registry transitions, as the source does. The corrected
forwarding is given beside them as `SetOldestVersionNeededCorrected` and
`ResetLogManagementCorrected`.

## Left out

- Locking: every `util::Mutex` / `LockGuard`. Each operation is atomic. `reset_log_management` takes no lock in the source, and that is not modelled either.
- Heap ownership: `delete[]` and the destructors of the registry and the directory (lines 88-96, 224-233). A freed entry is a `None` slot, and the directory's teardown is not modelled.
- Buffer internals: `util::Buffer::reserve_extra` and `release` belong to a class that is not part of this model.
  - Reserve grows the buffer exactly to the requested size.
  - Commit stores the written prefix as the payload, since readers only see the `sz` bytes it covers.
  - After commit the collector holds no buffer and its cursor is 0. The source leaves the cursor dangling until the next begin.
- `do_rollback_write_transact`: it only forwards to `SharedGroup::do_rollback_and_continue_as_read`, which is not part of this model.
- `do_interrupt` and `do_clear_interrupt`: their bodies are empty.
- `do_get_database_path`: it returns the collector's `databaseName` field.
- `do_transact_log_reserve`: it only calls `transact_log_reserve`, which is modelled as `TransactLogReserve`.
- The process-global `globalRegistry`: the directory is an explicit value passed in.
- `to_version`: it is never called.
- Allocation failure: `push_back` in `add_commit` (line 128), `new WriteLogRegistry` and the map insert in `get` (lines 219-220), and `reserve_extra` (line 355) can throw, which the program treats as fatal. Every transition here is total. The partial state a throwing `push_back` leaves behind, with `array_start` and `oldest` already re-seeded (lines 121-122), is not modelled.
- Lifetime of fetched views: `CommitEntries` returns payload values, which stay readable. In the source, each `BinaryData` points into a buffer the registry owns, and it dangles once a later release frees that buffer. Nothing here states how long a fetched view stays valid.
- 64-bit arithmetic: versions and sizes are unbounded naturals. The wrap-around of `uint_fast64_t` and `size_t` (for `orig_version + 1` and `last_to_clean + 1`) is not modelled, because versions never approach 2^64 in practice.
- test/test_impl_simulated_failure.cpp: a failure-injection harness unrelated to commit-log logic.
- WriteLogCollector.MakeWriteLogCollector: requires every registry in the store to lie below the directory's counter (`Allocated`). In the source a fresh `new` never aliases a live registry; without this the model could mint an identity already in the store.
- RegistryRegistry.GetDistinctPathsDistinctRegistries: requires a directory in which no two paths share a registry, because `add` can store one registry under two paths.

=== FILE: registry_registry.dfy ===
/**
 The process-wide directory that maps a database path to the registry shared
 by every collector opened on that path.

 A registry is identified by a `RegistryId`; `get` creates a registry by
 minting `nextId`, which stands for the fresh pointer `new` returns. The
 directory is an explicit value rather than a static, and its mutex is not
 modelled.
 */
module RegistryRegistry {

  type RegistryId = nat

  datatype Directory = Directory(registries: map<string, RegistryId>, nextId: RegistryId)

  datatype Lookup = Lookup(directory: Directory, registry: RegistryId)

  const Initial: Directory := Directory(map[], 0)

  /** Every stored registry was minted before `nextId`. */
  predicate Valid(d: Directory) {
    forall p | p in d.registries :: d.registries[p] < d.nextId
  }

  /** No two paths share a registry. */
  predicate Injective(d: Directory) {
    forall p, q | p in d.registries && q in d.registries && p != q :: d.registries[p] != d.registries[q]
  }

  /** Returns the registry stored under `path`, creating and storing a fresh one if there is none. */
  function Get(d: Directory, path: string): (res: Lookup)
    ensures path in res.directory.registries && res.directory.registries[path] == res.registry
    ensures path in d.registries ==> res == Lookup(d, d.registries[path])
    ensures path !in d.registries ==> res.registry == d.nextId && res.directory.nextId == d.nextId + 1
    ensures path !in d.registries && Valid(d) ==> res.registry !in d.registries.Values
    ensures forall q | q != path :: (q in res.directory.registries <==> q in d.registries)
    ensures forall q | q != path && q in d.registries :: res.directory.registries[q] == d.registries[q]
    ensures Valid(d) ==> Valid(res.directory)
  {
    if path in d.registries then
      Lookup(d, d.registries[path])
    else
      Lookup(Directory(d.registries[path := d.nextId], d.nextId + 1), d.nextId)
  }

  /** Stores `registry` under `path`, replacing whatever was there. */
  function Add(d: Directory, path: string, registry: RegistryId): (d': Directory)
    ensures path in d'.registries && d'.registries[path] == registry
    ensures forall q | q != path :: (q in d'.registries <==> q in d.registries)
    ensures forall q | q != path && q in d.registries :: d'.registries[q] == d.registries[q]
    ensures Valid(d) && registry < d.nextId ==> Valid(d')
  {
    d.(registries := d.registries[path := registry])
  }

  /** Forgets the registry stored under `path`, if any. */
  function Remove(d: Directory, path: string): (d': Directory)
    ensures path !in d'.registries
    ensures forall q | q != path :: (q in d'.registries <==> q in d.registries)
    ensures forall q | q != path && q in d.registries :: d'.registries[q] == d.registries[q]
    ensures Valid(d) ==> Valid(d')
    ensures Injective(d) ==> Injective(d')
  {
    d.(registries := d.registries - {path})
  }

  /** The directory starts empty, hence valid and one-to-one. */
  lemma InitialIsValid()
    ensures Valid(Initial) && Injective(Initial)
    ensures Initial.registries == map[]
  {
  }

  /** Two `get` calls with the same path return the same registry and store nothing new the second time. */
  lemma GetTwiceSameRegistry(d: Directory, path: string)
    ensures Get(Get(d, path).directory, path) == Lookup(Get(d, path).directory, Get(d, path).registry)
  {
  }

  /** `get` keeps the directory one-to-one. */
  lemma GetPreservesInjective(d: Directory, path: string)
    requires Valid(d) && Injective(d)
    ensures Injective(Get(d, path).directory)
  {
  }

  /** In a one-to-one directory, `get` on two different paths returns two different registries. */
  lemma GetDistinctPathsDistinctRegistries(d: Directory, p: string, q: string)
    requires Valid(d) && Injective(d)
    requires p != q
    ensures Get(Get(d, p).directory, q).registry != Get(d, p).registry
  {
  }
}

=== FILE: write_log_collector.dfy ===
/**
 The per-session adapter between a write transaction and its database's
 registry: a byte buffer with a write cursor, plus the identity of the
 shared registry.

 `buffer` stands for the collector's buffer, its length being the buffer's
 capacity; `cursor` is the offset of the first free byte. Registries are
 passed in as an explicit `Registries` store keyed by identity, standing for
 the heap objects the collector points at.
 */
module WriteLogCollector {
  import opened WriteLogRegistry
  import WriteLogRegistryFacts
  import RegistryRegistry

  type Registries = map<RegistryRegistry.RegistryId, Registry>

  datatype Collector = Collector(
    databaseName: string,
    registry: RegistryRegistry.RegistryId,
    buffer: seq<char>,
    cursor: nat)

  datatype Made = Made(directory: RegistryRegistry.Directory, registries: Registries, collector: Collector)

  datatype Committed = Committed(collector: Collector, registries: Registries, newVersion: Version)

  predicate Valid(c: Collector) {
    c.cursor <= |c.buffer|
  }

  /** The bytes written since the transaction began. */
  function Written(c: Collector): seq<char>
    requires Valid(c)
  {
    c.buffer[..c.cursor]
  }

  /**
   Every registry in the store was created by the directory: its identity
   lies below the directory's counter, so a freshly minted identity never
   names a registry still in use (including one the directory has forgotten).
   */
  predicate Allocated(d: RegistryRegistry.Directory, heap: Registries) {
    forall id | id in heap :: id < d.nextId
  }

  /**
   Opens a collector on `name`: looks up (or creates, empty) the registry the
   directory keeps for that path. The collector starts with no buffer.
   */
  function MakeWriteLogCollector(d: RegistryRegistry.Directory, heap: Registries, name: string): (m: Made)
    requires Allocated(d, heap)
    ensures m.directory == RegistryRegistry.Get(d, name).directory
    ensures m.collector.registry == RegistryRegistry.Get(d, name).registry
    ensures name in m.directory.registries && m.directory.registries[name] == m.collector.registry
    ensures name in d.registries ==> m.directory == d && m.registries == heap && m.collector.registry == d.registries[name]
    ensures name !in d.registries ==>
              && m.collector.registry !in heap
              && m.registries == heap[m.collector.registry := WriteLogRegistry.Empty]
    ensures forall id | id in heap :: id in m.registries && m.registries[id] == heap[id]
    ensures Allocated(m.directory, m.registries)
    ensures (name in d.registries ==> d.registries[name] in heap) ==> m.collector.registry in m.registries
    ensures m.collector.databaseName == name
    ensures Valid(m.collector) && m.collector.buffer == []
  {
    var found := RegistryRegistry.Get(d, name);
    var heap' := if name in d.registries then heap else heap[found.registry := WriteLogRegistry.Empty];
    Made(found.directory, heap', Collector(name, found.registry, [], 0))
  }

  /** Two collectors opened on the same path share one registry, and the second opening creates nothing. */
  lemma MakeTwiceSharesRegistry(d: RegistryRegistry.Directory, heap: Registries, name: string)
    requires Allocated(d, heap)
    ensures var m1 := MakeWriteLogCollector(d, heap, name);
            var m2 := MakeWriteLogCollector(m1.directory, m1.registries, name);
            && m2.collector.registry == m1.collector.registry
            && m2.directory == m1.directory
            && m2.registries == m1.registries
  {
  }

  /** Starts a transaction: the cursor returns to the start; the buffer's capacity is kept. */
  function BeginWriteTransact(c: Collector): (c': Collector)
    ensures Valid(c') && Written(c') == []
    ensures c'.buffer == c.buffer && c'.registry == c.registry && c'.databaseName == c.databaseName
  {
    c.(cursor := 0)
  }

  /** `n` zero bytes: the content of freshly grown capacity, which is never read. */
  function Zeros(n: nat): (z: seq<char>)
    ensures |z| == n
  {
    seq(n, _ => 0 as char)
  }

  /**
   Makes room for `n` more bytes after the cursor, preserving the written
   prefix. The buffer's growth policy is not part of this model: it grows
   exactly to the requested size when too small.
   */
  function TransactLogReserve(c: Collector, n: nat): (c': Collector)
    requires Valid(c)
    ensures Valid(c') && c'.cursor == c.cursor && Written(c') == Written(c)
    ensures |c'.buffer| >= c.cursor + n
    ensures c.cursor + n <= |c.buffer| ==> c' == c
    ensures c'.registry == c.registry && c'.databaseName == c.databaseName
  {
    if c.cursor + n <= |c.buffer| then c
    else c.(buffer := c.buffer + Zeros(c.cursor + n - |c.buffer|))
  }

  /** Copies `data` to the cursor, after reserving room for it, and advances the cursor past it. */
  function TransactLogAppend(c: Collector, data: seq<char>): (c': Collector)
    requires Valid(c)
    ensures Valid(c') && Written(c') == Written(c) + data
    ensures c'.registry == c.registry && c'.databaseName == c.databaseName
  {
    var g := TransactLogReserve(c, |data|);
    g.(buffer := g.buffer[..g.cursor] + data + g.buffer[g.cursor + |data|..], cursor := g.cursor + |data|)
  }

  /**
   Commits the transaction: the written bytes become version
   `orig + 1` of the collector's registry, the collector gives up its buffer,
   and the new version is returned. Every other registry is untouched.
   */
  function CommitWriteTransact(c: Collector, heap: Registries, orig: Version): (res: Committed)
    requires Valid(c) && c.registry in heap
    requires HoldsSomeCommits(heap[c.registry]) ==> orig == heap[c.registry].newest
    ensures res.newVersion == orig + 1
    ensures res.registries.Keys == heap.Keys
    ensures res.registries[c.registry].commits == heap[c.registry].commits + [Some(Written(c))]
    ensures res.registries[c.registry].newest == orig + 1
    ensures forall id | id in heap && id != c.registry :: res.registries[id] == heap[id]
    ensures res.collector.buffer == [] && Valid(res.collector)
    ensures res.collector.registry == c.registry && res.collector.databaseName == c.databaseName
    ensures WriteLogRegistry.Valid(heap[c.registry]) ==>
              && WriteLogRegistry.Valid(res.registries[c.registry])
              && Contents(res.registries[c.registry]) == Contents(heap[c.registry])[orig + 1 := Written(c)]
  {
    var payload := Written(c);
    var newVersion := orig + 1;
    var reg := heap[c.registry];
    var res := Committed(c.(buffer := [], cursor := 0), heap[c.registry := AddCommit(reg, newVersion, payload)], newVersion);
    if WriteLogRegistry.Valid(reg) then
      WriteLogRegistryFacts.AddCommitPreservesValid(reg, newVersion, payload); res
    else
      res
  }

  /**
   Forwards a watermark advance to the collector's registry, which runs the
   advance as the source writes it.
   */
  function SetOldestVersionNeeded(c: Collector, heap: Registries, k: Version): (heap': Registries)
    requires c.registry in heap && Addressable(heap[c.registry])
    requires HoldsSomeCommits(heap[c.registry]) ==>
               k <= heap[c.registry].newest && (k < heap[c.registry].newest ==> heap[c.registry].arrayStart <= k + 1)
    ensures heap'.Keys == heap.Keys
    ensures forall id | id in heap && id != c.registry :: heap'[id] == heap[id]
    ensures heap'[c.registry] == SetOldestVersionNeededAsWritten(heap[c.registry], k)
    ensures WriteLogRegistry.Valid(heap[c.registry]) && heap[c.registry].oldest <= k + 1 ==>
              && WriteLogRegistry.Valid(heap'[c.registry])
              && Contents(heap'[c.registry]) == map v | v in Contents(heap[c.registry]) && k < v :: Contents(heap[c.registry])[v]
  {
    var reg := heap[c.registry];
    var heap' := heap[c.registry := SetOldestVersionNeededAsWritten(reg, k)];
    if WriteLogRegistry.Valid(reg) && reg.oldest <= k + 1 then
      WriteLogRegistryFacts.SetOldestVersionNeededAsWrittenPreservesValid(reg, k); heap'
    else
      heap'
  }

  /**
   Forwards a hard reset to the collector's registry, which runs the reset
   as the source writes it: every slot of a valid registry is freed but the
   storage keeps its length.
   */
  function ResetLogManagement(c: Collector, heap: Registries): (heap': Registries)
    requires c.registry in heap && Addressable(heap[c.registry])
    ensures heap'.Keys == heap.Keys
    ensures forall id | id in heap && id != c.registry :: heap'[id] == heap[id]
    ensures !HoldsSomeCommits(heap'[c.registry])
    ensures |heap'[c.registry].commits| == |heap[c.registry].commits|
    ensures heap'[c.registry].arrayStart == heap[c.registry].arrayStart
    ensures WriteLogRegistry.Valid(heap[c.registry]) ==> WriteLogRegistryFacts.Emptied(heap'[c.registry])
  {
    var reg := heap[c.registry];
    var heap' := heap[c.registry := ResetLogManagementAsWritten(reg)];
    if WriteLogRegistry.Valid(reg) then
      WriteLogRegistryFacts.ResetAsWrittenLeavesStaleStorage(reg); heap'
    else
      heap'
  }

  /** The watermark advance forwarded to the clamped registry advance, under which `oldest` never moves backwards. */
  function SetOldestVersionNeededCorrected(c: Collector, heap: Registries, k: Version): (heap': Registries)
    requires c.registry in heap && Addressable(heap[c.registry])
    requires HoldsSomeCommits(heap[c.registry]) ==> k <= heap[c.registry].newest
    ensures heap'.Keys == heap.Keys
    ensures forall id | id in heap && id != c.registry :: heap'[id] == heap[id]
    ensures WriteLogRegistry.Valid(heap[c.registry]) ==>
              && WriteLogRegistry.Valid(heap'[c.registry])
              && Contents(heap'[c.registry]) == map v | v in Contents(heap[c.registry]) && k < v :: Contents(heap[c.registry])[v]
  {
    var reg := heap[c.registry];
    var heap' := heap[c.registry := WriteLogRegistry.SetOldestVersionNeeded(reg, k)];
    if WriteLogRegistry.Valid(reg) then
      WriteLogRegistryFacts.SetOldestVersionNeededPreservesValid(reg, k); heap'
    else
      heap'
  }

  /** The hard reset forwarded to the truncating registry reset, which leaves an empty, valid registry. */
  function ResetLogManagementCorrected(c: Collector, heap: Registries): (heap': Registries)
    requires c.registry in heap && Addressable(heap[c.registry])
    ensures heap'.Keys == heap.Keys
    ensures forall id | id in heap && id != c.registry :: heap'[id] == heap[id]
    ensures WriteLogRegistry.Valid(heap'[c.registry]) && Contents(heap'[c.registry]) == map[]
  {
    heap[c.registry := WriteLogRegistry.ResetLogManagement(heap[c.registry])]
  }

  /** Forwards a range fetch to the collector's registry. */
  method GetCommitEntries(c: Collector, heap: Registries, from: Version, to: Version)
    returns (views: seq<Option<Payload>>)
    requires c.registry in heap && CanFetch(heap[c.registry], from, to)
    ensures |views| == (if from < to then to - from else 0)
    ensures forall i | 0 <= i < |views| :: views[i] == Slot(heap[c.registry], from + 1 + i)
  {
    views := WriteLogRegistry.GetCommitEntries(heap[c.registry], from, to);
  }

  /** The appends `ds`, one call per element. */
  function AppendAll(c: Collector, ds: seq<seq<char>>): (c': Collector)
    requires Valid(c)
    ensures Valid(c') && c'.registry == c.registry && c'.databaseName == c.databaseName
  {
    if ds == [] then c else TransactLogAppend(AppendAll(c, ds[..|ds| - 1]), ds[|ds| - 1])
  }

  function Concat(ds: seq<seq<char>>): seq<char> {
    if ds == [] then [] else Concat(ds[..|ds| - 1]) + ds[|ds| - 1]
  }

  /** After begin and appends `d1..dn`, the written bytes are `d1 + ... + dn`. */
  lemma {:induction false} WrittenIsConcatenationOfAppends(c: Collector, ds: seq<seq<char>>)
    ensures Written(AppendAll(BeginWriteTransact(c), ds)) == Concat(ds)
  {
    if ds != [] {
      WrittenIsConcatenationOfAppends(c, ds[..|ds| - 1]);
    }
  }

  /**
   A transaction of appends `ds` committed on top of version `orig` makes
   their concatenation version `orig + 1`, which a fetch of `(orig, orig + 1]`
   then returns.
   */
  lemma CommittedPayloadIsConcatenation(c: Collector, heap: Registries, orig: Version, ds: seq<seq<char>>)
    requires c.registry in heap && WriteLogRegistry.Valid(heap[c.registry])
    requires HoldsSomeCommits(heap[c.registry]) ==> orig == heap[c.registry].newest
    ensures var res := CommitWriteTransact(AppendAll(BeginWriteTransact(c), ds), heap, orig);
            var reg := res.registries[c.registry];
            && WriteLogRegistry.Valid(reg)
            && CanFetch(reg, orig, orig + 1)
            && CommitEntries(reg, orig, orig + 1) == [Some(Concat(ds))]
  {
    var t := AppendAll(BeginWriteTransact(c), ds);
    WrittenIsConcatenationOfAppends(c, ds);
    var res := CommitWriteTransact(t, heap, orig);
    var reg := res.registries[c.registry];
    assert orig + 1 in Contents(reg);
    WriteLogRegistryFacts.FetchReturnsRetainedPayloads(reg, orig, orig + 1);
  }
}

=== FILE: write_log_registry.dfy ===
/**
 The per-database commit-log registry: a sliding window of commit payloads
 keyed by an unbounded version counter.

 Storage is a sequence of slots addressed by `version - arrayStart`; a slot
 is `Some(payload)` while the registry owns that payload and `None` once it
 has been freed. `oldest == 0` means that no versions are held.

 Every transition is a pure function on a `Registry` value; the registry's
 mutex is not modelled, each call is atomic. The `requires` clauses are the
 source's debug assertions together with the in-bounds conditions without
 which its vector indexing would be undefined.
 */
module WriteLogRegistry {

  datatype Option<+T> = None | Some(value: T)

  type Version = nat

  /** The bytes a commit's view covers: `sz` bytes starting at `data`. */
  type Payload = seq<char>

  datatype Registry = Registry(
    commits: seq<Option<Payload>>,
    arrayStart: Version,
    oldest: Version,
    newest: Version)

  /** A freshly constructed registry: no versions, empty storage. */
  const Empty: Registry := Registry([], 0, 0, 0)

  predicate HoldsSomeCommits(r: Registry) {
    r.oldest != 0
  }

  /** The storage index of version `v`; the source asserts that `v` is not below `arrayStart`. */
  function ToIndex(r: Registry, v: Version): (i: nat)
    requires r.arrayStart <= v
    ensures r.arrayStart + i == v
    ensures Addressable(r) && HoldsSomeCommits(r) && v <= r.newest ==> i < |r.commits|
  {
    v - r.arrayStart
  }

  /** Whether `v` lies in the window of held versions. */
  predicate IsAKnownCommit(r: Registry, v: Version): (b: bool)
    ensures b && Addressable(r) ==> r.arrayStart <= v < r.arrayStart + |r.commits|
    ensures Valid(r) ==> (b <==> v in Contents(r))
  {
    HoldsSomeCommits(r) && r.oldest <= v <= r.newest
  }

  /** The storage slot of version `v`. */
  function Slot(r: Registry, v: Version): Option<Payload>
    requires r.arrayStart <= v < r.arrayStart + |r.commits|
  {
    r.commits[ToIndex(r, v)]
  }

  /** Weak well-formedness: every known version has a storage slot. */
  predicate Addressable(r: Registry) {
    HoldsSomeCommits(r) ==> r.arrayStart <= r.oldest <= r.newest < r.arrayStart + |r.commits|
  }

  /**
   The window invariant. When versions are held, storage runs from
   `arrayStart` up to exactly `newest`, the slots of `[oldest, newest]` are
   live and every slot below `oldest` has been freed (nothing leaks). When no
   versions are held, storage is empty.
   */
  predicate Valid(r: Registry) {
    && Addressable(r)
    && (HoldsSomeCommits(r) ==>
          && |r.commits| == r.newest - r.arrayStart + 1
          && forall i | 0 <= i < |r.commits| :: r.commits[i].Some? <==> r.oldest - r.arrayStart <= i)
    && (!HoldsSomeCommits(r) ==> r.commits == [] && r.arrayStart == 0)
  }

  /** The abstract content of a valid registry: version -> payload. */
  ghost function Contents(r: Registry): map<Version, Payload>
    requires Valid(r)
  {
    if HoldsSomeCommits(r) then
      map v: Version | r.oldest <= v <= r.newest :: Slot(r, v).value
    else
      map[]
  }

  /** `s` with the slots in `[lo, hi)` freed. */
  function Freed(s: seq<Option<Payload>>, lo: int, hi: int): seq<Option<Payload>>
  {
    seq(|s|, i requires 0 <= i < |s| => if lo <= i < hi then None else s[i])
  }

  /** Appends version `v` as the new tail, seeding the window when empty. */
  function AddCommit(r: Registry, v: Version, p: Payload): (r': Registry)
    requires HoldsSomeCommits(r) ==> v == r.newest + 1
    ensures r'.commits == r.commits + [Some(p)]
    ensures r'.newest == v
    ensures !HoldsSomeCommits(r) ==> r'.arrayStart == v && r'.oldest == v
    ensures HoldsSomeCommits(r) ==> r'.arrayStart == r.arrayStart && r'.oldest == r.oldest
    ensures Addressable(r) && v != 0 ==> Addressable(r')
  {
    var seeded := if HoldsSomeCommits(r) then r else r.(arrayStart := v, oldest := v);
    seeded.(commits := r.commits + [Some(p)], newest := v)
  }

  /** What `get_commit_entries` asserts of the versions `(from, to]`. */
  predicate CanFetch(r: Registry, from: Version, to: Version) {
    from < to ==>
      && IsAKnownCommit(r, from + 1)
      && IsAKnownCommit(r, to)
      && r.arrayStart <= from + 1
      && to < r.arrayStart + |r.commits|
  }

  /** The views of versions `(from, to]`, in ascending version order. */
  function CommitEntries(r: Registry, from: Version, to: Version): (views: seq<Option<Payload>>)
    requires CanFetch(r, from, to)
    ensures |views| == (if from < to then to - from else 0)
    ensures forall i | 0 <= i < |views| :: views[i] == Slot(r, from + 1 + i)
  {
    if to <= from then [] else CommitEntries(r, from, to - 1) + [Slot(r, to)]
  }

  /** The copying loop of `get_commit_entries`; the registry is left as is. */
  method GetCommitEntries(r: Registry, from: Version, to: Version) returns (views: seq<Option<Payload>>)
    requires CanFetch(r, from, to)
    ensures |views| == (if from < to then to - from else 0)
    ensures forall i | 0 <= i < |views| :: views[i] == Slot(r, from + 1 + i)
    ensures views == CommitEntries(r, from, to)
  {
    views := [];
    var version := from + 1;
    while version <= to
      invariant from + 1 <= version <= (if from < to then to + 1 else from + 1)
      invariant |views| == version - from - 1
      invariant forall i | 0 <= i < |views| :: views[i] == Slot(r, from + 1 + i)
    {
      views := views + [r.commits[ToIndex(r, version)]];
      version := version + 1;
    }
  }

  /**
   `set_oldest_version_needed` exactly as the source writes it: free the
   slots of `oldest..k`, then either empty the registry (`k == newest`) or
   set `oldest` to `k + 1` and compact when more than half of the storage
   lies below it. Nothing stops `oldest` from moving backwards.
   */
  function SetOldestVersionNeededAsWritten(r: Registry, k: Version): (r': Registry)
    requires Addressable(r)
    requires HoldsSomeCommits(r) ==> k <= r.newest && (k < r.newest ==> r.arrayStart <= k + 1)
    ensures Addressable(r')
    ensures !HoldsSomeCommits(r) ==> r' == r
    ensures HoldsSomeCommits(r) && k == r.newest ==>
              !HoldsSomeCommits(r') && r'.arrayStart == 0 && r'.commits == [] && r'.newest == r.newest
    ensures HoldsSomeCommits(r) && k < r.newest ==>
              && r'.oldest == k + 1
              && r'.newest == r.newest
              && (forall v | k + 1 <= v <= r.newest :: Slot(r', v) == Slot(r, v))
              && (forall v | r.oldest <= v <= k && r'.arrayStart <= v :: Slot(r', v) == None)
    ensures HoldsSomeCommits(r) && k < r.newest && k + 1 - r.arrayStart > |r.commits| / 2 ==>
              r'.arrayStart == r'.oldest && |r'.commits| == r.newest - k
    ensures HoldsSomeCommits(r) && k < r.newest && k + 1 - r.arrayStart <= |r.commits| / 2 ==>
              r'.arrayStart == r.arrayStart && |r'.commits| == |r.commits|
    ensures HoldsSomeCommits(r') ==> r'.oldest - r'.arrayStart <= |r'.commits| / 2
  {
    if !HoldsSomeCommits(r) then r
    else
      var cleaned := Freed(r.commits, r.oldest - r.arrayStart, k + 1 - r.arrayStart);
      if k == r.newest then
        Registry([], 0, 0, r.newest)
      else
        var begin := k + 1 - r.arrayStart;
        if begin > |cleaned| / 2 then
          Registry(cleaned[begin .. r.newest - r.arrayStart + 1], k + 1, k + 1, r.newest)
        else
          Registry(cleaned, r.arrayStart, k + 1, r.newest)
  }

  /**
   `set_oldest_version_needed` with the watermark clamped so that `oldest`
   never moves backwards: a watermark below `oldest - 1` names versions that
   are already freed and is treated as `oldest - 1`.
   */
  function SetOldestVersionNeeded(r: Registry, k: Version): (r': Registry)
    requires Addressable(r)
    requires HoldsSomeCommits(r) ==> k <= r.newest
    ensures Addressable(r')
    ensures !HoldsSomeCommits(r) ==> r' == r
    ensures HoldsSomeCommits(r) && r.oldest <= k + 1 ==> r' == SetOldestVersionNeededAsWritten(r, k)
    ensures HoldsSomeCommits(r') ==> HoldsSomeCommits(r) && r.oldest <= r'.oldest
  {
    if !HoldsSomeCommits(r) then r
    else SetOldestVersionNeededAsWritten(r, if k + 1 < r.oldest then r.oldest - 1 else k)
  }

  /**
   `reset_log_management` as the source writes it: frees the slots of every
   held version and forgets the window, but keeps the storage length and
   `arrayStart`.
   */
  function ResetLogManagementAsWritten(r: Registry): (r': Registry)
    requires Addressable(r)
    ensures !HoldsSomeCommits(r')
    ensures |r'.commits| == |r.commits| && r'.arrayStart == r.arrayStart
    ensures HoldsSomeCommits(r) ==> r'.newest == 0
    ensures HoldsSomeCommits(r) ==> forall v | r.oldest <= v <= r.newest :: Slot(r', v) == None
    ensures !HoldsSomeCommits(r) ==> r' == r
  {
    if HoldsSomeCommits(r) then
      Registry(Freed(r.commits, r.oldest - r.arrayStart, r.newest + 1 - r.arrayStart), r.arrayStart, 0, 0)
    else
      r
  }

  /** `reset_log_management` that also truncates storage, as the empty window requires. */
  function ResetLogManagement(r: Registry): (r': Registry)
    requires Addressable(r)
    ensures Valid(r')
    ensures Contents(r') == map[]
    ensures !HoldsSomeCommits(r')
  {
    ResetLogManagementAsWritten(r).(commits := [], arrayStart := 0)
  }
}

=== FILE: write_log_registry_facts.dfy ===
/** Properties of the registry transitions, stated against the window invariant and its abstract content. */
module WriteLogRegistryFacts {
  import opened WriteLogRegistry

  /** Appending the next version keeps the invariant and records exactly that payload. */
  lemma AddCommitPreservesValid(r: Registry, v: Version, p: Payload)
    requires Valid(r)
    requires v != 0
    requires HoldsSomeCommits(r) ==> v == r.newest + 1
    ensures Valid(AddCommit(r, v, p))
    ensures Contents(AddCommit(r, v, p)) == Contents(r)[v := p]
  {
  }

  /** Advancing the watermark keeps the invariant and drops exactly the versions up to `k`. */
  lemma SetOldestVersionNeededPreservesValid(r: Registry, k: Version)
    requires Valid(r)
    requires HoldsSomeCommits(r) ==> k <= r.newest
    ensures Valid(SetOldestVersionNeeded(r, k))
    ensures Contents(SetOldestVersionNeeded(r, k)) == map v | v in Contents(r) && k < v :: Contents(r)[v]
  {
  }

  /**
   The advance as the source writes it keeps the invariant and drops exactly
   the versions up to `k`, for every watermark that does not lie below
   `oldest - 1`.
   */
  lemma SetOldestVersionNeededAsWrittenPreservesValid(r: Registry, k: Version)
    requires Valid(r)
    requires HoldsSomeCommits(r) ==> r.oldest <= k + 1 <= r.newest + 1
    ensures Valid(SetOldestVersionNeededAsWritten(r, k))
    ensures Contents(SetOldestVersionNeededAsWritten(r, k)) == map v | v in Contents(r) && k < v :: Contents(r)[v]
  {
    SetOldestVersionNeededPreservesValid(r, k);
  }

  /** A second as-written advance to the same watermark changes nothing, on the function's whole domain. */
  lemma SetOldestVersionNeededAsWrittenIdempotent(r: Registry, k: Version)
    requires Addressable(r)
    requires HoldsSomeCommits(r) ==> k <= r.newest && (k < r.newest ==> r.arrayStart <= k + 1)
    ensures var r1 := SetOldestVersionNeededAsWritten(r, k);
            HoldsSomeCommits(r1) ==> k <= r1.newest && (k < r1.newest ==> r1.arrayStart <= k + 1)
    ensures SetOldestVersionNeededAsWritten(SetOldestVersionNeededAsWritten(r, k), k) == SetOldestVersionNeededAsWritten(r, k)
  {
  }

  /** A second advance to the same watermark changes nothing. */
  lemma SetOldestVersionNeededIdempotent(r: Registry, k: Version)
    requires Addressable(r)
    requires HoldsSomeCommits(r) ==> k <= r.newest
    ensures SetOldestVersionNeeded(SetOldestVersionNeeded(r, k), k) == SetOldestVersionNeeded(r, k)
  {
  }

  /** After an advance at most half of the storage is dead, so storage stays within twice the live window. */
  lemma StorageBoundAfterAdvance(r: Registry, k: Version)
    requires Valid(r)
    requires HoldsSomeCommits(r) ==> k <= r.newest && (k < r.newest ==> r.arrayStart <= k + 1)
    ensures var r' := SetOldestVersionNeededAsWritten(r, k);
            HoldsSomeCommits(r') ==> |r'.commits| <= 2 * (r'.newest - r'.oldest + 1)
  {
  }

  /** A fetch within the retained window returns the retained payloads, in version order. */
  lemma FetchReturnsRetainedPayloads(r: Registry, from: Version, to: Version)
    requires Valid(r)
    requires from < to ==> IsAKnownCommit(r, from + 1) && IsAKnownCommit(r, to)
    ensures CanFetch(r, from, to)
    ensures forall v | from < v <= to :: v in Contents(r)
    ensures forall i | 0 <= i < |CommitEntries(r, from, to)| ::
              CommitEntries(r, from, to)[i] == Some(Contents(r)[from + 1 + i])
  {
  }

  /** In a valid registry, versions are held exactly when storage is non-empty, and exactly when some content is retained. */
  lemma HoldsSomeCommitsIffNonEmpty(r: Registry)
    requires Valid(r)
    ensures HoldsSomeCommits(r) <==> |r.commits| > 0
    ensures HoldsSomeCommits(r) <==> Contents(r) != map[]
  {
    if HoldsSomeCommits(r) {
      assert r.oldest in Contents(r);
    }
  }

  /** The state a reset leaves behind: no versions, and every storage slot freed. */
  predicate Emptied(r: Registry) {
    !HoldsSomeCommits(r) && forall i | 0 <= i < |r.commits| :: r.commits[i] == None
  }

  /**
   The as-written reset releases every payload but is not a valid empty
   window: its storage keeps the old length whenever versions were held.
   */
  lemma ResetAsWrittenLeavesStaleStorage(r: Registry)
    requires Valid(r)
    ensures Emptied(ResetLogManagementAsWritten(r))
    ensures Valid(ResetLogManagementAsWritten(r)) <==> !HoldsSomeCommits(r)
  {
  }

  /**
   Reset followed by a commit: the new version is known, yet `to_index`
   sends it to the stale first slot, which is freed; the payload sits at
   the old tail, where no version maps. Readers fetching it get a null view.
   */
  lemma ResetThenAddCommitLosesPayload(r: Registry, v: Version, p: Payload)
    requires Valid(r) && HoldsSomeCommits(r)
    requires v != 0
    ensures var r' := AddCommit(ResetLogManagementAsWritten(r), v, p);
            && IsAKnownCommit(r', v)
            && CanFetch(r', v - 1, v)
            && CommitEntries(r', v - 1, v) == [None]
            && r'.commits[|r.commits|] == Some(p)
            && !Valid(r')
  {
  }

  /**
   Reset, commit `v`, then release `v`: the release loop frees only the
   stale first slot, while the payload at the old tail is still owned when
   storage is emptied, so it is never freed.
   */
  lemma ResetThenReleaseLeaksPayload(r: Registry, v: Version, p: Payload)
    requires Valid(r) && HoldsSomeCommits(r)
    requires v != 0
    ensures var r' := AddCommit(ResetLogManagementAsWritten(r), v, p);
            && Addressable(r')
            && Freed(r'.commits, r'.oldest - r'.arrayStart, v + 1 - r'.arrayStart)[|r.commits|] == Some(p)
            && SetOldestVersionNeededAsWritten(r', v) == Registry([], 0, 0, v)
  {
  }

  /** Concrete input: "a", "bb", "ccc" committed as 1..3, reset, "d" committed as 4, then 4 released. */
  lemma ResetThenReleaseLeakExample()
    ensures var r := AddCommit(ResetLogManagementAsWritten(Registry([Some("a"), Some("bb"), Some("ccc")], 1, 1, 3)), 4, "d");
            && r == Registry([None, None, None, Some("d")], 4, 4, 4)
            && Freed(r.commits, 0, 1)[3] == Some("d")
            && SetOldestVersionNeededAsWritten(r, 4) == Registry([], 0, 0, 4)
  {
    var r3 := Registry([Some("a"), Some("bb"), Some("ccc")], 1, 1, 3);
    assert Freed(r3.commits, 0, 3) == [None, None, None];
  }

  /** With storage truncated, a reset followed by a commit seeds a valid one-version window. */
  lemma ResetThenAddCommitSeedsWindow(r: Registry, v: Version, p: Payload)
    requires Addressable(r)
    requires v != 0
    ensures Valid(AddCommit(ResetLogManagement(r), v, p))
    ensures Contents(AddCommit(ResetLogManagement(r), v, p)) == map[v := p]
  {
  }

  /**
   The as-written advance with a watermark below `oldest - 1` moves `oldest`
   backwards: version `k + 1` becomes known again although its slot was
   freed, and the window invariant is lost.
   */
  lemma WatermarkRegressionAsWritten(r: Registry, k: Version)
    requires Valid(r) && HoldsSomeCommits(r)
    requires r.arrayStart <= k + 1 && k + 1 < r.oldest
    ensures var r' := SetOldestVersionNeededAsWritten(r, k);
            && r'.oldest == k + 1 < r.oldest
            && IsAKnownCommit(r', k + 1)
            && r'.arrayStart <= k + 1
            && Slot(r', k + 1) == None
            && !Valid(r')
  {
  }

  /** Committing "a".."e" to a fresh registry yields a compact five-version window. */
  lemma ReplayFiveCommits()
    ensures Replay(["a", "b", "c", "d", "e"]) == Registry([Some("a"), Some("b"), Some("c"), Some("d"), Some("e")], 1, 1, 5)
  {
    var ps: seq<Payload> := ["a", "b", "c", "d", "e"];
    assert ps[..4] == ["a", "b", "c", "d"] && ps[..4][..3] == ["a", "b", "c"];
    assert ps[..4][..3][..2] == ["a", "b"] && ps[..4][..3][..2][..1] == ["a"] && ps[..4][..3][..2][..1][..0] == [];
    assert Replay(["a"]) == Registry([Some("a")], 1, 1, 1);
    assert Replay(["a", "b"]) == Registry([Some("a"), Some("b")], 1, 1, 2);
    assert Replay(["a", "b", "c"]) == Registry([Some("a"), Some("b"), Some("c")], 1, 1, 3);
    assert Replay(["a", "b", "c", "d"]) == Registry([Some("a"), Some("b"), Some("c"), Some("d")], 1, 1, 4);
  }

  /** Versions 1..5 committed, 1..2 released without compaction, then the watermark drops to 0. */
  lemma WatermarkRegressionExample()
    ensures var r := Registry([None, None, Some("c"), Some("d"), Some("e")], 1, 3, 5);
            && SetOldestVersionNeededAsWritten(Replay(["a", "b", "c", "d", "e"]), 2) == r
            && Valid(r)
            && SetOldestVersionNeededAsWritten(r, 0).oldest == 1
            && !Valid(SetOldestVersionNeededAsWritten(r, 0))
            && SetOldestVersionNeeded(r, 0) == r
  {
    var r := Registry([None, None, Some("c"), Some("d"), Some("e")], 1, 3, 5);
    assert Valid(r) by {
      forall i | 0 <= i < |r.commits|
        ensures r.commits[i].Some? <==> r.oldest - r.arrayStart <= i
      {
        assert i == 0 || i == 1 || i == 2 || i == 3 || i == 4;
      }
    }
    ReplayFiveCommits();
    var r5 := Registry([Some("a"), Some("b"), Some("c"), Some("d"), Some("e")], 1, 1, 5);
    assert Freed(r5.commits, 0, 2) == r.commits;
    WatermarkRegressionAsWritten(r, 0);
    assert Freed(r.commits, 2, 2) == r.commits;
  }

  /**
   The same low watermark after a compaction: versions 1..5 committed and
   1..3 released, which compacts storage to start at 4. A watermark of 1
   would set `oldest` to 2, below `arrayStart`, which `to_index` asserts
   against; the as-written advance is not defined there. The corrected
   advance leaves the registry as it is.
   */
  lemma CompactedWatermarkExample()
    ensures var r := Registry([Some("d"), Some("e")], 4, 4, 5);
            && SetOldestVersionNeededAsWritten(Replay(["a", "b", "c", "d", "e"]), 3) == r
            && Valid(r)
            && HoldsSomeCommits(r) && 1 < r.newest
            && !(r.arrayStart <= 1 + 1)
            && SetOldestVersionNeeded(r, 1) == r
  {
    var r := Registry([Some("d"), Some("e")], 4, 4, 5);
    ReplayFiveCommits();
    var r5 := Registry([Some("a"), Some("b"), Some("c"), Some("d"), Some("e")], 1, 1, 5);
    var cleaned := Freed(r5.commits, 0, 3);
    assert cleaned == [None, None, None, Some("d"), Some("e")];
    assert cleaned[3..5] == r.commits;
    assert Valid(r) by {
      forall i | 0 <= i < |r.commits|
        ensures r.commits[i].Some? <==> r.oldest - r.arrayStart <= i
      {
        assert i == 0 || i == 1;
      }
    }
    assert Freed(r.commits, 0, 0) == r.commits;
  }

  /**
   A watermark below `oldest - 1` names only versions already released: on
   a valid registry the corrected advance keeps the invariant and every
   retained version, wherever the storage starts.
   */
  lemma LowWatermarkKeepsContents(r: Registry, k: Version)
    requires Valid(r) && HoldsSomeCommits(r)
    requires k + 1 < r.oldest
    ensures Valid(SetOldestVersionNeeded(r, k))
    ensures Contents(SetOldestVersionNeeded(r, k)) == Contents(r)
    ensures SetOldestVersionNeeded(r, k).oldest == r.oldest
  {
    SetOldestVersionNeededPreservesValid(r, k);
  }

  /** A fresh registry after committing `ps` as versions `1..|ps|`. */
  function Replay(ps: seq<Payload>): (r: Registry)
    ensures r.newest == |ps|
    ensures HoldsSomeCommits(r) <==> |ps| > 0
    ensures Addressable(r)
  {
    if ps == [] then Empty else AddCommit(Replay(ps[..|ps| - 1]), |ps|, ps[|ps| - 1])
  }

  /** The payload committed as version `v` when `ps` is committed as `1..|ps|`. */
  function CommitOf(ps: seq<Payload>, v: Version): Payload
    requires 1 <= v <= |ps|
  {
    ps[v - 1]
  }

  /** Committing versions `1..N` retains every payload under its version. */
  lemma {:induction false} ReplayRetainsEveryCommit(ps: seq<Payload>)
    ensures Valid(Replay(ps))
    ensures Contents(Replay(ps)) == map v | 1 <= v <= |ps| :: CommitOf(ps, v)
  {
    if ps != [] {
      var front := ps[..|ps| - 1];
      ReplayRetainsEveryCommit(front);
      AddCommitPreservesValid(Replay(front), |ps|, ps[|ps| - 1]);
      assert (map v | 1 <= v <= |front| :: CommitOf(front, v))[|ps| := ps[|ps| - 1]]
          == map v | 1 <= v <= |ps| :: CommitOf(ps, v);
    }
  }

  /** `fetch_range(0, N)` after committing `1..N` returns every payload, in commit order. */
  lemma FetchAllAfterReplay(ps: seq<Payload>)
    ensures CanFetch(Replay(ps), 0, |ps|)
    ensures CommitEntries(Replay(ps), 0, |ps|) == seq(|ps|, i requires 0 <= i < |ps| => Some(ps[i]))
  {
    var r := Replay(ps);
    ReplayRetainsEveryCommit(ps);
    FetchReturnsRetainedPayloads(r, 0, |ps|);
    var views := CommitEntries(r, 0, |ps|);
    forall i | 0 <= i < |ps|
      ensures views[i] == Some(ps[i])
    {
      assert views[i] == Some(Contents(r)[i + 1]);
      assert Contents(r)[i + 1] == CommitOf(ps, i + 1);
    }
  }

  /** Committing "a", "bb", "ccc" to a fresh registry yields a compact three-version window. */
  lemma ReplayThreeCommits()
    ensures Replay(["a", "bb", "ccc"]) == Registry([Some("a"), Some("bb"), Some("ccc")], 1, 1, 3)
  {
    var ps: seq<Payload> := ["a", "bb", "ccc"];
    assert ps[..2] == ["a", "bb"] && ps[..2][..1] == ["a"] && ps[..2][..1][..0] == [];
    assert Replay(["a"]) == Registry([Some("a")], 1, 1, 1);
    assert Replay(["a", "bb"]) == Registry([Some("a"), Some("bb")], 1, 1, 2);
  }

  /** Releasing version 1 of that window frees its slot without compacting; releasing 3 empties it. */
  lemma ReleaseScenarioSteps()
    ensures var r3 := Registry([Some("a"), Some("bb"), Some("ccc")], 1, 1, 3);
            SetOldestVersionNeededAsWritten(r3, 1) == Registry([None, Some("bb"), Some("ccc")], 1, 2, 3)
    ensures SetOldestVersionNeededAsWritten(Registry([None, Some("bb"), Some("ccc")], 1, 2, 3), 3) == Registry([], 0, 0, 3)
  {
  }

  /**
   Commit "a", "bb", "ccc"; fetch all three; release version 1 and fetch the
   rest; release everything; commit "d" as version 4 and fetch it.
   */
  lemma EndToEndScenario()
    ensures var r3 := Replay(["a", "bb", "ccc"]);
            var r4 := SetOldestVersionNeededAsWritten(r3, 1);
            var r5 := SetOldestVersionNeededAsWritten(r4, 3);
            var r6 := AddCommit(r5, 4, "d");
            && CanFetch(r3, 0, 3) && CommitEntries(r3, 0, 3) == [Some("a"), Some("bb"), Some("ccc")]
            && CanFetch(r4, 1, 3) && CommitEntries(r4, 1, 3) == [Some("bb"), Some("ccc")]
            && !HoldsSomeCommits(r5)
            && CanFetch(r6, 3, 4) && CommitEntries(r6, 3, 4) == [Some("d")]
  {
    ReplayThreeCommits();
    ReleaseScenarioSteps();
    var r3 := Registry([Some("a"), Some("bb"), Some("ccc")], 1, 1, 3);
    var r4 := Registry([None, Some("bb"), Some("ccc")], 1, 2, 3);
    var r6 := Registry([Some("d")], 4, 4, 4);
    assert AddCommit(Registry([], 0, 0, 3), 4, "d") == r6;
    assert CommitEntries(r3, 0, 3) == [Some("a"), Some("bb"), Some("ccc")];
    assert CommitEntries(r4, 1, 3) == [Some("bb"), Some("ccc")];
    assert CommitEntries(r6, 3, 4) == [Some("d")];
  }
}
